=== FILE: README.md ===
# Storefront product search: the query pipeline

A Dafny model of the logic that the website product-search endpoint of ERPNext
(`erpnext/templates/pages/product_search.py`) writes itself. Everything else in
that file hands work to the database, the web framework or the RediSearch client.
The model covers four pieces:

- **The sanitiser** `clean_up_query` (`Sanitize.CleanUpQuery`). It keeps every
  alphanumeric or white-space character, drops every other one, and keeps the
  order.
- **The fuzzy flag**. Fuzzy matching is requested from the item-name
  autocomplete index only when the caller asks for it AND the sanitised query is
  longer than four characters.
- **The disjunctive query** (`Compose.ComposeQuery`). The query string sent to
  the item index is the sanitised query followed by `|('<sanitised suggestion>')`
  for each suggestion, in the order the suggester returned them.
- **The empty-query guards** of `search` and `get_category_suggestions`. A
  falsy query (`None` or `""`) returns `[]` and contacts no index.

The two handlers are pure functions (`ProductSearch.Search` and
`ProductSearch.CategorySuggestions`). `Search` takes the item-name autocomplete
index and the full-text item index as function parameters; `CategorySuggestions`
takes the category autocomplete index. Each returns a trace of the request it
sent to each index and what it returns to its caller, so "no backend was
contacted" is a property of the result. A suggestion is a record with one
field, its text: the endpoint reads only `.string`.

The composed query has a partner: a reader (`QueryParse.Decode`) that splits
the query at its bars and strips the `('…')` quoting. The reader accepts an
alternative only when the text inside its quotes holds none of the delimiters
`|`, `'`, `(` and `)`. Reading a composed query back always succeeds and
recovers the sanitised query and the sanitised suggestions
(`QueryParse.DecodeCompose`). So no query or suggestion text can add an
alternative or close its quotes early. This holds because the sanitiser never
keeps any of the four delimiters. The delimiter counts
(`Compose.DelimiterCounts`) say the same thing another way: every delimiter in
the composed query comes from the composition itself.

Character classes (`CharClass`): `IsSpace` is exactly the set of code points
for which Python's `str.isspace` holds. `IsAlnum` agrees with `str.isalnum` on
every code point below U+0100 (ASCII and Latin-1). Above U+0100 it is false.

Behaviour worth knowing, modelled as written: a query made only of dropped
characters (such as `"?!"`) is not falsy. It therefore reaches both indexes
with an empty term, and the index query is the clauses alone
(`ProductSearch.SearchOfNoiseOnlyQuery`). `get_category_suggestions` passes the
query to its index without sanitising it.

Modules: `Wrappers` (Option), `CharClass`, `Sanitize`, `Autocomplete` (suggestion
and request records), `Compose`, `QueryParse`, `ProductSearch` (the handlers).

## Model

| member | source | states |
|---|---|---|
| `CharClass.IsAlnum` | erpnext/templates/pages/product_search.py:99 | `str.isalnum` on one character (exact below U+0100); no alphanumeric character is white space or a delimiter |
| `CharClass.IsSpace` | erpnext/templates/pages/product_search.py:99 | `str.isspace` on one character (the full set of 29 code points); no white-space character is a delimiter |
| `CharClass.DelimiterNotKept` | erpnext/templates/pages/product_search.py:99 | none of the composition's delimiters (bar, quote and both parentheses) is alphanumeric or white space |
| `CharClass.KeptTextHasNoDelimiter` | erpnext/templates/pages/product_search.py:99 | text made of alphanumeric and white-space characters holds no delimiter at all |
| `Sanitize.CleanUpQuery` | erpnext/templates/pages/product_search.py:98-99 | every character of the sanitised query is alphanumeric or white space, and it is no longer than the input |
| `Sanitize.CleanUpQueryKeepsKept` | erpnext/templates/pages/product_search.py:99 | the sanitised query is a subsequence of the input (order preserved) and holds every kept character exactly as often as the input does |
| `Sanitize.CleanUpQueryUnique` | erpnext/templates/pages/product_search.py:99 | the previous two facts determine the result: any order-preserving selection of the input's kept characters that keeps all of them is the sanitised query |
| `Sanitize.CleanUpQueryAppend` | erpnext/templates/pages/product_search.py:99 | sanitising works character by character: the sanitised concatenation is the concatenation of the sanitised parts |
| `Sanitize.CleanUpQueryFixedPoint` | erpnext/templates/pages/product_search.py:99 | sanitising leaves a text unchanged if and only if every character of it is alphanumeric or white space |
| `Sanitize.CleanUpQueryIdempotent` | erpnext/templates/pages/product_search.py:99 | sanitising twice gives the same result as sanitising once |
| `Sanitize.CleanUpQueryEmpty` | erpnext/templates/pages/product_search.py:99 | the sanitised query is empty if and only if the input has no alphanumeric or white-space character |
| `Sanitize.CleanAll` | erpnext/templates/pages/product_search.py:83-84 | each suggestion's text is sanitised on its own, one result per suggestion, in order |
| `Sanitize.CleanAllFixedPoint` | erpnext/templates/pages/product_search.py:83-84 | suggestions made only of kept characters come out of sanitising unchanged |
| `Autocomplete.Strings` | erpnext/templates/pages/product_search.py:113 | the list of suggestion strings has one entry per suggestion, holding that suggestion's text, in the index's order |
| `Compose.Clause` | erpnext/templates/pages/product_search.py:84 | the text appended for one suggestion is five characters longer than the sanitised suggestion text (a bar, two quote marks and two parentheses) |
| `Compose.ClauseShape` | erpnext/templates/pages/product_search.py:84 | one clause is a bar, `('`, the sanitised suggestion text and `')`; its leading bar is the only bar in it |
| `Compose.ComposeQuery` | erpnext/templates/pages/product_search.py:81-84 | the loop that appends one clause per suggestion ends with its starting text followed by every suggestion's clause (a bar, then the sanitised text quoted as `('…')`), in suggestion order |
| `Compose.ComposePrefix` | erpnext/templates/pages/product_search.py:81-84 | the sanitised query is a prefix of the composed query, and the two are equal if and only if there are no suggestions |
| `Compose.ClauseOfKeptText` | erpnext/templates/pages/product_search.py:84 | a suggestion made only of kept characters is quoted verbatim: a bar, then `('<text>')` |
| `Compose.TwoClausesOfKeptTexts` | erpnext/templates/pages/product_search.py:83-84 | two such suggestions give their two clauses, in order |
| `Compose.ClauseOccurrences` | erpnext/templates/pages/product_search.py:84 | one clause holds exactly one bar, one `(`, one `)` and two quotes, whatever the suggestion's text |
| `Compose.ClausesOccurrences` | erpnext/templates/pages/product_search.py:83-84 | the clauses of n suggestions hold each of bar and the parentheses exactly n times and the quote exactly 2n times |
| `Compose.ComposedOccurrences` | erpnext/templates/pages/product_search.py:81-84 | the sanitised query adds no delimiter: the composed query holds each delimiter exactly as often as its clauses do |
| `Compose.DelimiterCounts` | erpnext/templates/pages/product_search.py:81-84 | the composed query holds exactly one bar, one pair of parentheses and two quotes per suggestion, whatever the query and the suggestions contain |
| `QueryParse.Decode` | erpnext/templates/pages/product_search.py:81-84 | a reader of the disjunctive query syntax (a term, then alternatives each written as a bar and `('…')`) accepts only a term without a bar and alternatives whose quoted text holds no delimiter |
| `QueryParse.DecodeCompose` | erpnext/templates/pages/product_search.py:81-84 | reading back the composed query gives the sanitised query as the term and the sanitised suggestions, in order, as the alternatives |
| `QueryParse.ComposeInjective` | erpnext/templates/pages/product_search.py:81-84 | two composed queries are equal only if their sanitised queries are equal and their sanitised suggestion lists are equal (and of the same length) |
| `ProductSearch.IsFalsy` | erpnext/templates/pages/product_search.py:64-66 | the `not query` guard holds exactly for `None` and the empty string; any query that passes it is non-empty |
| `ProductSearch.Search` | erpnext/templates/pages/product_search.py:63-96 | a falsy query returns no documents and contacts neither index; otherwise the suggester gets the sanitised query, the caller's limit and fuzzy on iff requested and the sanitised query is longer than 4; the item index gets the sanitised query plus one clause per suggestion; its documents are returned in its order |
| `ProductSearch.CategorySuggestions` | erpnext/templates/pages/product_search.py:104-113 | a falsy query returns nothing and contacts no index; otherwise the category index gets the raw query, a cap of 10 and no fuzzy matching, and one string per suggestion is returned, in order |
| `ProductSearch.SearchFuzzyNeedsRequestAndLength` | erpnext/templates/pages/product_search.py:77 | fuzzy matching is requested only when the caller asked for it and the raw query is longer than four characters |
| `ProductSearch.SearchQueryStartsWithTerm` | erpnext/templates/pages/product_search.py:81-84 | the query sent to the item index begins with the sanitised query |
| `ProductSearch.SearchQueryWellFormed` | erpnext/templates/pages/product_search.py:81-86 | the query sent to the item index has one bar and two quotes per suggestion and reads back as the sanitised query with the sanitised suggestions |
| `ProductSearch.CategorySuggestionsBounded` | erpnext/templates/pages/product_search.py:111-113 | if the category index returns at most `num` suggestions for every non-negative `num`, at most ten strings are returned |
| `ProductSearch.SearchTwoSuggestions` | erpnext/templates/pages/product_search.py:74-84 | a clean query longer than four characters with two clean suggestions (such as "red shoe" with "red shoes" and "red sandals") requests fuzzy matching and produces exactly the term, a bar, `('s1')`, a bar, `('s2')` |
| `ProductSearch.SearchRedShoe` | erpnext/templates/pages/product_search.py:74-84 | the query "red shoe" with a fuzzy request and the suggestions "red shoes" and "red sandals" asks the item-name index for fuzzy matching with the caller's limit and sends exactly `red shoe`, a bar, `('red shoes')`, a bar, `('red sandals')` to the item index |
| `ProductSearch.SearchIgnoresDroppedCharacters` | erpnext/templates/pages/product_search.py:70-77 | characters dropped by the sanitiser do not count towards the fuzzy threshold: a clean term followed by any amount of punctuation is looked up as the term alone |
| `ProductSearch.SearchOfNoiseOnlyQuery` | erpnext/templates/pages/product_search.py:64-84 | a non-empty query made only of dropped characters is not short-circuited: it is looked up with an empty term and no fuzzy matching, and the index query is the clauses alone |
| `ProductSearch.SearchOfCleanInput` | erpnext/templates/pages/product_search.py:70-84 | a clean query with clean suggestions passes through unchanged: the index query reads back as the query and the suggestion texts |

## Left out

- `get_product_list` (lines 27-60): the filtering, ordering and paging are done by the SQL database, and `cint`, `cstr` and `nowdate` are framework functions whose code is not part of this model.
- `set_product_info_for_website` and `get_item_for_list_in_html`: collaborators from other modules, not part of this model.
- The RediSearch `AutoCompleter`, `Client` and `Query` classes, `make_key` and the index-name constants: the external search engine. The suggester and the item index are function parameters. Ranking, fuzzy matching and the `Query` object's default paging belong to them.
- `frappe.cache()` connection handling and `@frappe.whitelist` routing: host-framework I/O and HTTP plumbing.
- `convert_to_dict` (lines 101-102): it reads a foreign object's `__dict__`. The item index parameter returns the documents in their final shape, and `Search` returns them unchanged and in order.
- The `print` debugging output (lines 88 and 94): a side channel.
- CharClass.IsAlnum: it is exact only below U+0100. Above that, letters and digits that Python's Unicode-aware `str.isalnum` accepts are treated as dropped. Every property proved here depends only on the four delimiters not being kept, so none of them depends on this simplification.
- ProductSearch.Search: `fuzzy_search` and `limit` are modelled as a boolean and an integer. Values that arrive as strings over HTTP, where a string such as `"false"` is truthy in Python, are not modelled.
- ProductSearch.Search: the query is modelled as an optional string. Falsy values of other Python types are not modelled.
- ProductSearch.Search: a failure of the autocomplete index or the item index propagates uncaught out of `search` in the source. Both indexes are total function parameters here, so the model has no failure path.
- ProductSearch.CategorySuggestions: likewise, a failure of the category index propagates uncaught out of `get_category_suggestions`; the model has no failure path.
- The default arguments `limit=10` and `fuzzy_search=True` are not modelled separately: callers of `Search` pass both explicitly.

=== FILE: autocomplete.dfy ===
/**
 * What the search endpoint sees of the autocomplete index: the request it
 * sends and the suggestions it gets back. The index itself (prefix lookup,
 * fuzzy matching, ranking) is not modelled; a suggester is any function from
 * a request to a ranked list of suggestions.
 */
module Autocomplete {

  /** One suggestion; only its text is read by the endpoint (score and payload are not). */
  datatype Suggestion = Suggestion(text: string)

  /** The arguments of one suggestion lookup: the term, the result cap and the fuzzy flag. */
  datatype SuggestRequest = SuggestRequest(term: string, num: int, fuzzy: bool)

  /** The text of each suggestion, in the order the index ranked them. */
  function Strings(ss: seq<Suggestion>): (r: seq<string>)
    ensures |r| == |ss|
    ensures forall i :: 0 <= i < |r| ==> r[i] == ss[i].text
  {
    if |ss| == 0 then [] else [ss[0].text] + Strings(ss[1..])
  }
}

=== FILE: char_class.dfy ===
/**
 * The two character tests the sanitiser relies on, Python's `str.isalnum`
 * and `str.isspace`, applied to a single character.
 *
 * `IsSpace` is the complete set of code points for which `str.isspace`
 * holds. `IsAlnum` agrees with `str.isalnum` on every code point below
 * U+0100 (ASCII and Latin-1) and treats every code point above as not
 * alphanumeric: a simplification of the Unicode letter and number classes.
 */
module CharClass {

  /**
   * ASCII letters and digits, and the Latin-1 letters and numerals. No
   * alphanumeric character is white space or a delimiter.
   */
  predicate IsAlnum(c: char)
    ensures IsAlnum(c) ==> !IsSpace(c) && !IsDelimiter(c)
  {
    || ('a' <= c <= 'z')
    || ('A' <= c <= 'Z')
    || ('0' <= c <= '9')
    || c == '\U{AA}' || c == '\U{B5}' || c == '\U{BA}'   // feminine ordinal, micro sign, masculine ordinal
    || c == '\U{B2}' || c == '\U{B3}' || c == '\U{B9}'   // superscript two, three, one
    || ('\U{BC}' <= c <= '\U{BE}')                       // vulgar fractions 1/4, 1/2, 3/4
    || ('\U{C0}' <= c <= '\U{D6}')                       // Latin-1 letters before the multiplication sign
    || ('\U{D8}' <= c <= '\U{F6}')                       // ... up to the division sign
    || ('\U{F8}' <= c <= '\U{FF}')                       // ... and after it
  }

  /** White space: the separators and line or paragraph breaks. No white space is a delimiter. */
  predicate IsSpace(c: char)
    ensures IsSpace(c) ==> !IsDelimiter(c)
  {
    || ('\U{9}' <= c <= '\U{D}')        // tab, line feed, vertical tab, form feed, carriage return
    || ('\U{1C}' <= c <= '\U{1F}')      // file, group, record and unit separators
    || c == ' '
    || c == '\U{85}' || c == '\U{A0}' || c == '\U{1680}'
    || ('\U{2000}' <= c <= '\U{200A}')  // en quad ... hair space
    || c == '\U{2028}' || c == '\U{2029}' || c == '\U{202F}'
    || c == '\U{205F}' || c == '\U{3000}'
  }

  /** A character the sanitiser keeps. */
  predicate IsKept(c: char) {
    IsAlnum(c) || IsSpace(c)
  }

  /** The four characters the query composition uses as syntax. */
  predicate IsDelimiter(c: char) {
    c == '|' || c == '\'' || c == '(' || c == ')'
  }

  /** Text made only of kept characters. */
  predicate AllKept(s: string) {
    forall i :: 0 <= i < |s| ==> IsKept(s[i])
  }

  /** Text holding none of the four delimiters. */
  predicate DelimiterFree(s: string) {
    forall i :: 0 <= i < |s| ==> !IsDelimiter(s[i])
  }

  /** No delimiter is ever kept. */
  lemma DelimiterNotKept(c: char)
    requires IsDelimiter(c)
    ensures !IsKept(c)
  {
  }

  /** The number of times `c` occurs in `s`. */
  function Occurrences(s: string, c: char): (n: nat)
    ensures n == 0 <==> c !in s
    ensures n <= |s|
  {
    if |s| == 0 then 0
    else (if s[0] == c then 1 else 0) + Occurrences(s[1..], c)
  }

  /** Occurrences add up over a concatenation. */
  lemma {:induction false} OccurrencesAppend(a: string, b: string, c: char)
    ensures Occurrences(a + b, c) == Occurrences(a, c) + Occurrences(b, c)
    decreases |a|
  {
    if |a| == 0 {
      assert a + b == b;
    } else {
      assert (a + b)[1..] == a[1..] + b;
      OccurrencesAppend(a[1..], b, c);
    }
  }

  /** Text made only of kept characters holds no delimiter. */
  lemma KeptTextHasNoDelimiter(s: string, c: char)
    requires AllKept(s)
    requires IsDelimiter(c)
    ensures c !in s
    ensures Occurrences(s, c) == 0
  {
  }

  /** Text made only of kept characters is delimiter-free. */
  lemma KeptTextIsDelimiterFree(s: string)
    requires AllKept(s)
    ensures DelimiterFree(s)
  {
  }
}

=== FILE: compose.dfy ===
/**
 * The disjunctive full-text query built by the search endpoint: the
 * sanitised query followed by one quoted alternative per suggestion,
 * `term|('first')|('second')...`.
 */
module Compose {
  import opened CharClass
  import opened Sanitize
  import opened Autocomplete

  /** A sub-clause holding one alternative. */
  function Quote(text: string): string {
    "('" + text + "')"
  }

  /** The text appended for one suggestion: a bar, then its sanitised text quoted. */
  function Clause(s: Suggestion): (r: string)
    ensures |r| == |CleanUpQuery(s.text)| + 5
  {
    "|" + Quote(CleanUpQuery(s.text))
  }

  /**
   * The shape of one clause: `|('`, the sanitised suggestion text, `')`.
   * The leading bar is the only bar in it, so a suggestion cannot open an
   * alternative of its own.
   */
  lemma ClauseShape(s: Suggestion)
    ensures Clause(s)[..3] == "|('" && Clause(s)[|Clause(s)| - 2..] == "')"
    ensures Clause(s)[3..|Clause(s)| - 2] == CleanUpQuery(s.text)
    ensures '|' !in Clause(s)[1..]
  {
    var t := CleanUpQuery(s.text);
    KeptTextHasNoDelimiter(t, '|');
    assert Clause(s)[1..] == ['(', '\''] + t + ['\'', ')'];
  }

  /** The clauses of all suggestions, in order. */
  function Clauses(ss: seq<Suggestion>): string {
    if |ss| == 0 then "" else Clause(ss[0]) + Clauses(ss[1..])
  }

  /**
   * The loop that extends the query string one suggestion at a time; `acc`
   * is the query string built so far. Whatever the loop starts from, it ends
   * with that text followed by every suggestion's clause, in order.
   */
  function ComposeQuery(acc: string, ss: seq<Suggestion>): (r: string)
    ensures r == acc + Clauses(ss)
    decreases |ss|
  {
    if |ss| == 0 then acc
    else
      var c := Clause(ss[0]);
      assert Clauses(ss) == c + Clauses(ss[1..]);
      assert (acc + c) + Clauses(ss[1..]) == acc + (c + Clauses(ss[1..]));
      ComposeQuery(acc + c, ss[1..])
  }

  /** The composed query starts with the sanitised query, and is exactly it when there is no suggestion. */
  lemma ComposePrefix(query: string, ss: seq<Suggestion>)
    ensures CleanUpQuery(query) <= ComposeQuery(CleanUpQuery(query), ss)
    ensures |ss| == 0 <==> ComposeQuery(CleanUpQuery(query), ss) == CleanUpQuery(query)
  {
    if |ss| > 0 {
      assert |Clauses(ss)| > 0;
    }
  }

  /** A suggestion made of kept characters is quoted as it is. */
  lemma ClauseOfKeptText(t: string)
    requires AllKept(t)
    ensures Clause(Suggestion(t)) == "|('" + t + "')"
  {
    CleanUpQueryFixedPoint(t);
  }

  /** Two suggestions made of kept characters give two clauses holding their texts, in order. */
  lemma TwoClausesOfKeptTexts(t1: string, t2: string)
    requires AllKept(t1) && AllKept(t2)
    ensures Clauses([Suggestion(t1), Suggestion(t2)]) == "|('" + t1 + "')" + "|('" + t2 + "')"
  {
    ClauseOfKeptText(t1);
    ClauseOfKeptText(t2);
    var a, b := Suggestion(t1), Suggestion(t2);
    assert [a, b][1..] == [b];
    assert Clauses([b]) == Clause(b) + Clauses([]);
  }

  /** How often each delimiter occurs in one clause: two quotes, one of every other delimiter. */
  function PerClause(c: char): nat {
    if c == '\'' then 2 else 1
  }

  /** Each clause holds one bar, one opening and one closing parenthesis and two quotes. */
  lemma ClauseOccurrences(s: Suggestion, c: char)
    requires IsDelimiter(c)
    ensures Occurrences(Clause(s), c) == PerClause(c)
  {
    var t := CleanUpQuery(s.text);
    KeptTextHasNoDelimiter(t, c);
    assert Clause(s) == "|('" + (t + "')");
    OccurrencesAppend("|('", t + "')", c);
    OccurrencesAppend(t, "')", c);
  }

  /** The clauses of n suggestions hold each delimiter n times, quotes 2n times. */
  lemma {:induction false} ClausesOccurrences(ss: seq<Suggestion>, c: char)
    requires IsDelimiter(c)
    ensures Occurrences(Clauses(ss), c) == PerClause(c) * |ss|
    decreases |ss|
  {
    if |ss| > 0 {
      ClauseOccurrences(ss[0], c);
      ClausesOccurrences(ss[1..], c);
      OccurrencesAppend(Clause(ss[0]), Clauses(ss[1..]), c);
    }
  }

  /** A delimiter occurs in the composed query as often as in its clauses. */
  lemma ComposedOccurrences(query: string, ss: seq<Suggestion>, c: char)
    requires IsDelimiter(c)
    ensures Occurrences(ComposeQuery(CleanUpQuery(query), ss), c) == PerClause(c) * |ss|
  {
    var t := CleanUpQuery(query);
    KeptTextHasNoDelimiter(t, c);
    ClausesOccurrences(ss, c);
    OccurrencesAppend(t, Clauses(ss), c);
  }

  /**
   * Every delimiter of the composed query comes from the composition: the
   * query has one bar, one pair of parentheses and two quotes per
   * suggestion, whatever the query and the suggestions contain.
   */
  lemma DelimiterCounts(query: string, ss: seq<Suggestion>)
    ensures Occurrences(ComposeQuery(CleanUpQuery(query), ss), '|') == |ss|
    ensures Occurrences(ComposeQuery(CleanUpQuery(query), ss), '\'') == 2 * |ss|
    ensures Occurrences(ComposeQuery(CleanUpQuery(query), ss), '(') == |ss|
    ensures Occurrences(ComposeQuery(CleanUpQuery(query), ss), ')') == |ss|
  {
    ComposedOccurrences(query, ss, '|');
    ComposedOccurrences(query, ss, '\'');
    ComposedOccurrences(query, ss, '(');
    ComposedOccurrences(query, ss, ')');
  }
}

=== FILE: product_search.dfy ===
/**
 * The two search handlers of the storefront endpoint: `search`, which
 * sanitises the query, asks the item-name autocomplete index for
 * suggestions and runs the composed disjunctive query against the item
 * index, and `get_category_suggestions`, which passes the query to the
 * category autocomplete index.
 *
 * Every index is a parameter. A handler returns a trace of what it asked
 * each index and what it returns to the caller, so that "no backend was
 * contacted" is a statement about the result.
 */
module ProductSearch {
  import opened Wrappers
  import opened CharClass
  import opened Sanitize
  import opened Autocomplete
  import opened Compose
  import opened QueryParse

  /** Fuzzy matching needs a sanitised query strictly longer than this. */
  const FuzzyThreshold := 4

  /** The number of category suggestions asked for. */
  const CategorySuggestionLimit := 10

  /** Python's truth test on the query argument: `None` and the empty string are false. */
  predicate IsFalsy(query: Option<string>)
    ensures IsFalsy(query) <==> query == None || query == Some("")
    ensures !IsFalsy(query) ==> |query.value| > 0
  {
    query.None? || query.value == []
  }

  /**
   * What `search` did: the suggestion lookup it made, the query string it
   * sent to the item index, and the documents it returns.
   */
  datatype SearchTrace<D> = SearchTrace(
    suggestRequest: Option<SuggestRequest>,
    indexQuery: Option<string>,
    results: seq<D>)

  /** What `get_category_suggestions` did: the lookup it made and the strings it returns. */
  datatype CategoryTrace = CategoryTrace(
    suggestRequest: Option<SuggestRequest>,
    results: seq<string>)

  /**
   * The `search` handler. A falsy query returns no documents and contacts
   * neither index. Otherwise the suggestion lookup gets the sanitised query,
   * the caller's limit and a fuzzy flag that is on only when the caller asks
   * for it and the sanitised query has more than four characters; the item
   * index gets the sanitised query followed by one clause per suggestion, in
   * the order the suggester returned them; its documents are returned as
   * they come.
   */
  function Search<D>(
    query: Option<string>,
    limit: int,
    fuzzySearch: bool,
    suggester: SuggestRequest -> seq<Suggestion>,
    index: string -> seq<D>): (r: SearchTrace<D>)
    ensures IsFalsy(query) <==> r.suggestRequest.None?
    ensures IsFalsy(query) <==> r.indexQuery.None?
    ensures IsFalsy(query) ==> r.results == []
    ensures !IsFalsy(query) ==>
      && r.suggestRequest.value.term == CleanUpQuery(query.value)
      && r.suggestRequest.value.num == limit
      && (r.suggestRequest.value.fuzzy <==> fuzzySearch && |CleanUpQuery(query.value)| > FuzzyThreshold)
    ensures !IsFalsy(query) ==>
      && r.indexQuery.value == CleanUpQuery(query.value) + Clauses(suggester(r.suggestRequest.value))
      && r.results == index(r.indexQuery.value)
  {
    if IsFalsy(query) then
      SearchTrace(None, None, [])
    else
      var term := CleanUpQuery(query.value);
      var request := SuggestRequest(term, limit, fuzzySearch && |term| > FuzzyThreshold);
      var queryString := ComposeQuery(term, suggester(request));
      SearchTrace(Some(request), Some(queryString), index(queryString))
  }

  /**
   * The `get_category_suggestions` handler. A falsy query returns nothing and
   * contacts no index. Otherwise the category index gets the query as given
   * (not sanitised), a cap of ten and no fuzzy matching, and the text of each
   * suggestion is returned in the index's order.
   */
  function CategorySuggestions(query: Option<string>, suggester: SuggestRequest -> seq<Suggestion>): (r: CategoryTrace)
    ensures IsFalsy(query) <==> r.suggestRequest.None?
    ensures IsFalsy(query) ==> r.results == []
    ensures !IsFalsy(query) ==>
      r.suggestRequest == Some(SuggestRequest(query.value, CategorySuggestionLimit, false))
    ensures !IsFalsy(query) ==>
      && |r.results| == |suggester(r.suggestRequest.value)|
      && forall i :: 0 <= i < |r.results| ==> r.results[i] == suggester(r.suggestRequest.value)[i].text
  {
    if IsFalsy(query) then
      CategoryTrace(None, [])
    else
      var request := SuggestRequest(query.value, CategorySuggestionLimit, false);
      CategoryTrace(Some(request), Strings(suggester(request)))
  }

  /**
   * Fuzzy matching is asked for only when the caller asked for it and the
   * raw query itself is longer than four characters.
   */
  lemma SearchFuzzyNeedsRequestAndLength<D>(
    query: Option<string>, limit: int, fuzzySearch: bool,
    suggester: SuggestRequest -> seq<Suggestion>, index: string -> seq<D>)
    requires Search(query, limit, fuzzySearch, suggester, index).suggestRequest.Some?
    ensures Search(query, limit, fuzzySearch, suggester, index).suggestRequest.value.fuzzy
      ==> fuzzySearch && |query.value| > FuzzyThreshold
  {
  }

  /** The query string sent to the item index starts with the sanitised query. */
  lemma SearchQueryStartsWithTerm<D>(
    query: Option<string>, limit: int, fuzzySearch: bool,
    suggester: SuggestRequest -> seq<Suggestion>, index: string -> seq<D>)
    requires !IsFalsy(query)
    ensures CleanUpQuery(query.value) <= Search(query, limit, fuzzySearch, suggester, index).indexQuery.value
  {
  }

  /**
   * The query string sent to the item index has one bar and two quotes per
   * suggestion, and reads back as the sanitised query with the sanitised
   * suggestions as alternatives.
   */
  lemma SearchQueryWellFormed<D>(
    query: Option<string>, limit: int, fuzzySearch: bool,
    suggester: SuggestRequest -> seq<Suggestion>, index: string -> seq<D>)
    requires !IsFalsy(query)
    ensures var r := Search(query, limit, fuzzySearch, suggester, index);
      var ss := suggester(r.suggestRequest.value);
      && Occurrences(r.indexQuery.value, '|') == |ss|
      && Occurrences(r.indexQuery.value, '\'') == 2 * |ss|
      && Decode(r.indexQuery.value) == Some(Disjunction(CleanUpQuery(query.value), CleanAll(Strings(ss))))
  {
    var r := Search(query, limit, fuzzySearch, suggester, index);
    var ss := suggester(r.suggestRequest.value);
    DelimiterCounts(query.value, ss);
    DecodeCompose(query.value, ss);
  }

  /**
   * If the category index honours every non-negative cap, at most ten
   * category suggestions are returned.
   */
  lemma CategorySuggestionsBounded(query: Option<string>, suggester: SuggestRequest -> seq<Suggestion>)
    requires forall req: SuggestRequest :: req.num >= 0 ==> |suggester(req)| <= req.num
    ensures |CategorySuggestions(query, suggester).results| <= CategorySuggestionLimit
  {
    if !IsFalsy(query) {
      var req := SuggestRequest(query.value, CategorySuggestionLimit, false);
      assert |suggester(req)| <= req.num;
    }
  }

  /**
   * A query longer than four characters with two suggestions, all made of
   * kept characters, asks for fuzzy matching and sends the query followed by
   * both quoted suggestions to the item index. For instance, "red shoe" with
   * the suggestions "red shoes" and "red sandals" sends
   * `red shoe|('red shoes')|('red sandals')`.
   */
  lemma SearchTwoSuggestions<D>(
    term: string, s1: string, s2: string, limit: int, index: string -> seq<D>)
    requires AllKept(term) && |term| > FuzzyThreshold
    requires AllKept(s1) && AllKept(s2)
    ensures var r := Search(Some(term), limit, true, req => [Suggestion(s1), Suggestion(s2)], index);
      && r.suggestRequest == Some(SuggestRequest(term, limit, true))
      && r.indexQuery == Some(term + ("|('" + s1 + "')" + "|('" + s2 + "')"))
  {
    assert CleanUpQuery(term) == term by {
      CleanUpQueryFixedPoint(term);
    }
    TwoClausesOfKeptTexts(s1, s2);
  }

  /** The texts of the example below are made of kept characters. */
  lemma RedShoeTextsKept()
    ensures AllKept("red shoe") && AllKept("red shoes") && AllKept("red sandals")
  {
  }

  /** The term and clauses of the example below, written as one string. */
  lemma RedShoeQueryText()
    ensures "red shoe" + ("|('" + "red shoes" + "')" + "|('" + "red sandals" + "')")
         == "red shoe|('red shoes')|('red sandals')"
  {
  }

  /** The example above, on its literal strings. */
  lemma SearchRedShoe<D>(index: string -> seq<D>)
    ensures var r := Search(Some("red shoe"), 10, true,
                            req => [Suggestion("red shoes"), Suggestion("red sandals")], index);
      && r.suggestRequest == Some(SuggestRequest("red shoe", 10, true))
      && r.indexQuery == Some("red shoe|('red shoes')|('red sandals')")
  {
    RedShoeTextsKept();
    RedShoeQueryText();
    SearchTwoSuggestions("red shoe", "red shoes", "red sandals", 10, index);
  }

  /**
   * Length is measured after sanitising: characters that are dropped do not
   * count towards the fuzzy threshold, however many there are.
   */
  lemma SearchIgnoresDroppedCharacters<D>(
    term: string, noise: string, limit: int, fuzzySearch: bool,
    suggester: SuggestRequest -> seq<Suggestion>, index: string -> seq<D>)
    requires AllKept(term)
    requires |term + noise| > 0
    requires forall i :: 0 <= i < |noise| ==> !IsKept(noise[i])
    ensures Search(Some(term + noise), limit, fuzzySearch, suggester, index).suggestRequest
         == Some(SuggestRequest(term, limit, fuzzySearch && |term| > FuzzyThreshold))
  {
    CleanUpQueryAppend(term, noise);
    CleanUpQueryFixedPoint(term);
    CleanUpQueryEmpty(noise);
    assert term + [] == term;
  }

  /**
   * A query of dropped characters alone is not falsy, so it still reaches
   * both indexes, with an empty term and no fuzzy matching; the index query
   * is then the clauses alone.
   */
  lemma SearchOfNoiseOnlyQuery<D>(
    noise: string, limit: int, fuzzySearch: bool,
    suggester: SuggestRequest -> seq<Suggestion>, index: string -> seq<D>)
    requires |noise| > 0
    requires forall i :: 0 <= i < |noise| ==> !IsKept(noise[i])
    ensures var r := Search(Some(noise), limit, fuzzySearch, suggester, index);
      && r.suggestRequest == Some(SuggestRequest("", limit, false))
      && r.indexQuery == Some(Clauses(suggester(SuggestRequest("", limit, false))))
  {
    CleanUpQueryEmpty(noise);
    var ss := suggester(SuggestRequest("", limit, false));
    assert "" + Clauses(ss) == Clauses(ss);
  }

  /**
   * A query and suggestions made only of kept characters pass through
   * unchanged: the index query reads back as the query and the suggestions'
   * texts, in order.
   */
  lemma SearchOfCleanInput<D>(
    term: string, limit: int, fuzzySearch: bool,
    suggester: SuggestRequest -> seq<Suggestion>, index: string -> seq<D>)
    requires |term| > 0 && AllKept(term)
    requires forall req, i :: 0 <= i < |suggester(req)| ==> AllKept(suggester(req)[i].text)
    ensures var r := Search(Some(term), limit, fuzzySearch, suggester, index);
      && r.suggestRequest.value.term == term
      && Decode(r.indexQuery.value) == Some(Disjunction(term, Strings(suggester(r.suggestRequest.value))))
  {
    CleanUpQueryFixedPoint(term);
    var r := Search(Some(term), limit, fuzzySearch, suggester, index);
    var ss := suggester(r.suggestRequest.value);
    DecodeCompose(term, ss);
    CleanAllFixedPoint(Strings(ss));
  }
}

=== FILE: query_parse.dfy ===
/**
 * A reader for composed queries: split at the bars, then strip the quoting
 * from every alternative, accepting only alternatives whose quoted text holds
 * no delimiter. Reading back a composed query always succeeds and recovers the
 * sanitised query and the sanitised suggestions, so no query or suggestion
 * text can add an alternative of its own or close its quotes early.
 */
module QueryParse {
  import opened Wrappers
  import opened CharClass
  import opened Sanitize
  import opened Autocomplete
  import opened Compose

  /** The pieces of `s` between bars; there is always at least one piece. */
  function Split(s: string): (parts: seq<string>)
    ensures |parts| >= 1
    ensures forall i :: 0 <= i < |parts| ==> '|' !in parts[i]
  {
    if |s| == 0 then [""]
    else
      var rest := Split(s[1..]);
      if s[0] == '|' then [""] + rest
      else [[s[0]] + rest[0]] + rest[1..]
  }

  /** A bar-free text is one piece. */
  lemma {:induction false} SplitBarFree(a: string)
    requires '|' !in a
    ensures Split(a) == [a]
    decreases |a|
  {
    if |a| > 0 {
      assert '|' !in a[1..];
      SplitBarFree(a[1..]);
      assert a == [a[0]] + a[1..];
    }
  }

  /** A bar-free text before a bar is the first piece. */
  lemma {:induction false} SplitAtFirstBar(a: string, b: string)
    requires '|' !in a
    ensures Split(a + "|" + b) == [a] + Split(b)
    decreases |a|
  {
    if |a| == 0 {
      assert a + "|" + b == ['|'] + b;
      assert (['|'] + b)[1..] == b;
    } else {
      assert '|' !in a[1..];
      SplitAtFirstBar(a[1..], b);
      assert (a + "|" + b)[1..] == a[1..] + "|" + b;
      assert a == [a[0]] + a[1..];
    }
  }

  /**
   * The text inside a `('...')` sub-clause, if `seg` is one whose inside
   * holds no delimiter; a quote or parenthesis inside would end the quoting
   * early, so such a piece is rejected.
   */
  function Unquote(seg: string): (r: Option<string>)
    ensures r.Some? <==> |seg| >= 4 && seg[..2] == "('" && seg[|seg| - 2..] == "')"
                         && DelimiterFree(seg[2..|seg| - 2])
    ensures r.Some? ==> Quote(r.value) == seg && DelimiterFree(r.value)
  {
    if |seg| >= 4 && seg[..2] == "('" && seg[|seg| - 2..] == "')" && DelimiterFree(seg[2..|seg| - 2]) then
      assert seg == seg[..2] + seg[2..|seg| - 2] + seg[|seg| - 2..];
      Some(seg[2..|seg| - 2])
    else None
  }

  /** Quoting a text and reading it back gives the text exactly when the text holds no delimiter. */
  lemma UnquoteQuote(t: string)
    ensures DelimiterFree(t) ==> Unquote(Quote(t)) == Some(t)
    ensures !DelimiterFree(t) ==> Unquote(Quote(t)) == None
  {
    var q := Quote(t);
    assert q[..2] == "('";
    assert q[|q| - 2..] == "')";
    assert q[2..|q| - 2] == t;
  }

  /** The texts inside all sub-clauses, or nothing if one piece is not a sub-clause. */
  function UnquoteAll(segs: seq<string>): (r: Option<seq<string>>)
    ensures r.Some? ==> |r.value| == |segs|
    ensures r.Some? ==> forall i :: 0 <= i < |segs| ==> Unquote(segs[i]) == Some(r.value[i])
  {
    if |segs| == 0 then Some([])
    else match (Unquote(segs[0]), UnquoteAll(segs[1..]))
      case (Some(t), Some(ts)) => Some([t] + ts)
      case _ => None
  }

  /** A full-text query read back: the literal term and its alternatives. */
  datatype Disjunction = Disjunction(term: string, alternatives: seq<string>)

  /**
   * Reads a composed query: the first piece is the term, every other piece a
   * quoted alternative. Whatever it accepts, the term holds no bar and no
   * alternative holds a delimiter.
   */
  function Decode(s: string): (r: Option<Disjunction>)
    ensures r.Some? ==> '|' !in r.value.term
    ensures r.Some? ==> forall i :: 0 <= i < |r.value.alternatives| ==> DelimiterFree(r.value.alternatives[i])
  {
    var parts := Split(s);
    match UnquoteAll(parts[1..])
    case None => None
    case Some(alts) => Some(Disjunction(parts[0], alts))
  }

  /** Each suggestion's sub-clause, in order. */
  function Quotes(ss: seq<Suggestion>): (r: seq<string>)
    ensures |r| == |ss|
    ensures forall i :: 0 <= i < |r| ==> r[i] == Quote(CleanUpQuery(ss[i].text))
  {
    if |ss| == 0 then [] else [Quote(CleanUpQuery(ss[0].text))] + Quotes(ss[1..])
  }

  /** A sub-clause around kept text holds no bar. */
  lemma QuoteBarFree(t: string)
    requires AllKept(t)
    ensures '|' !in Quote(t)
  {
    KeptTextHasNoDelimiter(t, '|');
    assert Quote(t) == ['(', '\''] + t + ['\'', ')'];
  }

  /** A bar-free head followed by clauses splits into the head and each suggestion's sub-clause. */
  lemma {:induction false} SplitClauses(head: string, ss: seq<Suggestion>)
    requires '|' !in head
    ensures Split(head + Clauses(ss)) == [head] + Quotes(ss)
    decreases |ss|
  {
    if |ss| == 0 {
      assert head + Clauses(ss) == head;
      SplitBarFree(head);
    } else {
      var q0 := Quote(CleanUpQuery(ss[0].text));
      var tail := Clauses(ss[1..]);
      QuoteBarFree(CleanUpQuery(ss[0].text));
      assert head + Clauses(ss) == head + "|" + (q0 + tail) by {
        assert Clauses(ss) == "|" + q0 + tail;
      }
      SplitAtFirstBar(head, q0 + tail);
      SplitClauses(q0, ss[1..]);
      assert Quotes(ss) == [q0] + Quotes(ss[1..]);
    }
  }

  /** Reading back each sub-clause gives each suggestion's sanitised text. */
  lemma {:induction false} UnquoteQuotes(ss: seq<Suggestion>)
    ensures UnquoteAll(Quotes(ss)) == Some(CleanAll(Strings(ss)))
    decreases |ss|
  {
    if |ss| > 0 {
      KeptTextIsDelimiterFree(CleanUpQuery(ss[0].text));
      UnquoteQuote(CleanUpQuery(ss[0].text));
      UnquoteQuotes(ss[1..]);
      assert Quotes(ss)[1..] == Quotes(ss[1..]);
      assert CleanAll(Strings(ss)) == [CleanUpQuery(ss[0].text)] + CleanAll(Strings(ss[1..]));
    }
  }

  /**
   * Reading back the composed query recovers the sanitised query as the term
   * and the sanitised suggestions, in order, as the alternatives.
   */
  lemma DecodeCompose(query: string, ss: seq<Suggestion>)
    ensures Decode(ComposeQuery(CleanUpQuery(query), ss))
         == Some(Disjunction(CleanUpQuery(query), CleanAll(Strings(ss))))
  {
    var t := CleanUpQuery(query);
    KeptTextHasNoDelimiter(t, '|');
    SplitClauses(t, ss);
    UnquoteQuotes(ss);
    assert ([t] + Quotes(ss))[1..] == Quotes(ss);
  }

  /** Two composed queries are equal only when their sanitised queries and sanitised suggestions are. */
  lemma ComposeInjective(q1: string, ss1: seq<Suggestion>, q2: string, ss2: seq<Suggestion>)
    requires ComposeQuery(CleanUpQuery(q1), ss1) == ComposeQuery(CleanUpQuery(q2), ss2)
    ensures CleanUpQuery(q1) == CleanUpQuery(q2)
    ensures |ss1| == |ss2|
    ensures CleanAll(Strings(ss1)) == CleanAll(Strings(ss2))
  {
    DecodeCompose(q1, ss1);
    DecodeCompose(q2, ss2);
  }
}

=== FILE: sanitize.dfy ===
/**
 * The query sanitiser `clean_up_query`: keep every alphanumeric or
 * white-space character, drop every other one, preserve the order.
 */
module Sanitize {
  import opened CharClass

  /** `a` can be obtained from `b` by deleting characters. */
  predicate IsSubsequence(a: string, b: string)
    decreases |b|
  {
    || |a| == 0
    || (&& |b| > 0
        && ((a[0] == b[0] && IsSubsequence(a[1..], b[1..])) || IsSubsequence(a, b[1..])))
  }

  /** The sanitiser. Its result holds only kept characters and is no longer than its input. */
  function CleanUpQuery(q: string): (r: string)
    ensures AllKept(r)
    ensures |r| <= |q|
  {
    if |q| == 0 then []
    else
      var rest := CleanUpQuery(q[1..]);
      if IsKept(q[0]) then [q[0]] + rest else rest
  }

  /**
   * The sanitiser deletes characters and nothing else: its result is a
   * subsequence of the input that holds every kept character of the input
   * as often as the input does.
   */
  lemma {:induction false} CleanUpQueryKeepsKept(q: string)
    ensures IsSubsequence(CleanUpQuery(q), q)
    ensures forall c :: IsKept(c) ==> multiset(CleanUpQuery(q))[c] == multiset(q)[c]
    decreases |q|
  {
    if |q| > 0 {
      CleanUpQueryKeepsKept(q[1..]);
      assert q == [q[0]] + q[1..];
      var rest := CleanUpQuery(q[1..]);
      if IsKept(q[0]) {
        assert ([q[0]] + rest)[1..] == rest;
      }
    }
  }

  /** Sanitising distributes over concatenation. */
  lemma {:induction false} CleanUpQueryAppend(a: string, b: string)
    ensures CleanUpQuery(a + b) == CleanUpQuery(a) + CleanUpQuery(b)
    decreases |a|
  {
    if |a| == 0 {
      assert a + b == b;
    } else {
      assert (a + b)[0] == a[0];
      assert (a + b)[1..] == a[1..] + b;
      CleanUpQueryAppend(a[1..], b);
    }
  }

  /** The fixed points of the sanitiser are exactly the texts made only of kept characters. */
  lemma {:induction false} CleanUpQueryFixedPoint(s: string)
    ensures CleanUpQuery(s) == s <==> AllKept(s)
    decreases |s|
  {
    if |s| > 0 && AllKept(s) {
      assert AllKept(s[1..]);
      CleanUpQueryFixedPoint(s[1..]);
      assert s == [s[0]] + s[1..];
    }
  }

  /** The sanitiser returns the empty text exactly when no character of the input is kept. */
  lemma {:induction false} CleanUpQueryEmpty(q: string)
    ensures CleanUpQuery(q) == [] <==> forall i :: 0 <= i < |q| ==> !IsKept(q[i])
    decreases |q|
  {
    if |q| > 0 {
      CleanUpQueryEmpty(q[1..]);
      if !IsKept(q[0]) && CleanUpQuery(q[1..]) == [] {
        forall i | 0 <= i < |q|
          ensures !IsKept(q[i])
        {
          if i > 0 {
            assert q[i] == q[1..][i - 1];
          }
        }
      }
    }
  }

  /** Sanitising twice is sanitising once. */
  lemma {:induction false} CleanUpQueryIdempotent(q: string)
    ensures CleanUpQuery(CleanUpQuery(q)) == CleanUpQuery(q)
  {
    CleanUpQueryFixedPoint(CleanUpQuery(q));
  }

  /** Deleting characters never adds occurrences. */
  lemma {:induction false} SubsequenceMultiset(a: string, b: string)
    requires IsSubsequence(a, b)
    ensures multiset(a) <= multiset(b)
    decreases |b|
  {
    if |a| > 0 {
      assert b == [b[0]] + b[1..];
      if a[0] == b[0] && IsSubsequence(a[1..], b[1..]) {
        SubsequenceMultiset(a[1..], b[1..]);
        assert a == [a[0]] + a[1..];
      } else {
        SubsequenceMultiset(a, b[1..]);
      }
    }
  }

  /**
   * The sanitiser's contract determines its result: the only subsequence of
   * `q` made of kept characters that keeps every kept character of `q` as
   * often as `q` holds it is `CleanUpQuery(q)`.
   */
  lemma {:induction false} CleanUpQueryUnique(q: string, r: string)
    requires AllKept(r)
    requires IsSubsequence(r, q)
    requires forall c :: IsKept(c) ==> multiset(r)[c] == multiset(q)[c]
    ensures r == CleanUpQuery(q)
    decreases |q|
  {
    if |q| == 0 {
    } else {
      assert q == [q[0]] + q[1..];
      if IsKept(q[0]) {
        if |r| == 0 {
          assert false;
        } else if r[0] == q[0] && IsSubsequence(r[1..], q[1..]) {
          assert r == [r[0]] + r[1..];
          assert AllKept(r[1..]);
          CleanUpQueryUnique(q[1..], r[1..]);
        } else {
          SubsequenceMultiset(r, q[1..]);
          assert false;
        }
      } else {
        if |r| > 0 {
          assert IsKept(r[0]);
        }
        assert IsSubsequence(r, q[1..]);
        CleanUpQueryUnique(q[1..], r);
      }
    }
  }

  /** The sanitised text of each suggestion, in order. */
  function CleanAll(texts: seq<string>): (r: seq<string>)
    ensures |r| == |texts|
    ensures forall i :: 0 <= i < |r| ==> AllKept(r[i]) && r[i] == CleanUpQuery(texts[i])
  {
    if |texts| == 0 then [] else [CleanUpQuery(texts[0])] + CleanAll(texts[1..])
  }

  /** Suggestions made only of kept characters are left as they are. */
  lemma {:induction false} CleanAllFixedPoint(texts: seq<string>)
    requires forall i :: 0 <= i < |texts| ==> AllKept(texts[i])
    ensures CleanAll(texts) == texts
  {
    forall i | 0 <= i < |texts|
      ensures CleanAll(texts)[i] == texts[i]
    {
      CleanUpQueryFixedPoint(texts[i]);
    }
  }
}

=== FILE: wrappers.dfy ===
/** Optional values: `None` stands for Python's `None` and for an absent argument. */
module Wrappers {

  datatype Option<+T> = None | Some(value: T)

}
